=== FILE: README.md ===
# Chat-with-retrieval: a Dafny model of its core

This project models the parts of the chatbot that have behaviour worth stating:

- **The backend chat turn** (`ChatService.createChat`, `backend/src/chat/chat.service.ts`).
  It searches the vector service for passages similar to the message and joins their texts
  into a context block. It builds the prompt and asks the completion service for a reply.
  Then it saves a `Chat` record and re-indexes the message and the reply. Every failure is
  rethrown as the single error "Failed to process chat message".
  `getChatHistory` returns one user's records, newest first.
- **The stored record** (`Chat`, `backend/src/chat/schemas/chat.schema.ts`). Three required
  strings are checked when the record is saved. `context` defaults to `[]`, and both
  timestamps default to the creation time.
- **The frontend send action** (`ChatComponent.sendMessage`). It has a guard, an
  append-only message list and a loading flag.
- **The Pinecone backend of the vector service** (`PineconeDB`). It packs text and timestamp
  into the metadata and keys each vector `vec_<timestamp>`. Search unpacks the metadata,
  `delete_by_timestamp` does nothing, and the constructor checks the credentials.
- **The base backend helpers** (`BaseVectorDB`): the constructor, `_format_metadata` and
  `_parse_metadata`.
- **The backend factory** (`create_vector_db`): it dispatches on `VECTOR_DB_TYPE`.

Layout: one module per source file. `wrappers.dfy` holds `Option`, `Result` and `Outcome`.
`py_values.dfy` holds Python values, with floats kept as opaque bit patterns.
`chat_schema.dfy` is `ChatSchema` and `backend_chat.dfy` is `BackendChat`.
`frontend_chat.dfy` is `FrontendChat` and `base_vector_db.dfy` is `BaseVectorDb`.
`pinecone_db.dfy` is `PineconeDb` and `vector_db_factory.dfy` is `VectorDbFactory`.

How the collaborators are modelled:

- Each collaborator of a chat turn is an abstract outcome: success with a value, or failure.
  This covers the similarity search, the completion, the database write and the two
  re-index calls (`BackendChat.Collaborators`).
- `BackendChat.Turn` is the specification of one turn. It gives the calls made, in order,
  the record stored (if any), and the value returned or the error thrown.
- The `ChatService` class keeps the record store and a call log. Its `CreateChat` method is
  proved to do exactly what `Turn` says.
- Clock readings, environment variables, and Python's `str` and `eval` are parameters.

Three behaviours of `createChat` are easy to get wrong:

- A failed similarity search is not absorbed. The turn fails, and no empty-context fallback
  exists.
- A failed re-index call is not ignored. The record stays stored, but `createChat` still
  throws.
- `createChat` never checks that `userId` and `message` are non-empty before calling
  anything. The search and the completion are made first. The save then rejects the record,
  because Mongoose's `required` rule for strings rejects `""` as well as a missing value
  (`BackendChat.InvalidDtoNeverStored`).

## Model

| member | source | states |
|---|---|---|
| `ChatSchema.MissingPaths` | backend/src/chat/schemas/chat.schema.ts:8-15 | no path fails exactly when `userId`, `message` and `response` are all present and non-empty; at most three paths fail |
| `ChatSchema.MissingPathsNamed` | backend/src/chat/schemas/chat.schema.ts:8-15 | the validation error names a required path exactly when that path is missing or empty |
| `ChatSchema.Validate` | backend/src/chat/schemas/chat.schema.ts:6-25 | saving succeeds exactly when the three required strings are present and non-empty. On success the record keeps those fields, `context` is the given list or `[]`, and both timestamps are the creation time. A saved record satisfies `ValidChat` |
| `ChatSchema.MissingResponseRejected` | backend/src/chat/schemas/chat.schema.ts:14-15 | a record whose response is `null` or empty is rejected at save, and the error names `response` |
| `BackendChat.Texts` | backend/src/chat/chat.service.ts:62 | the stored context has one text per retrieved passage, in retrieval order |
| `BackendChat.JoinLines` | backend/src/chat/chat.service.ts:31 | joining no texts gives `""`. Otherwise the length is the texts' total plus one separator between neighbours, and the result starts with the first text |
| `BackendChat.BuildPrompt` | backend/src/chat/chat.service.ts:34-36 | the prompt opens with `Context:\n` exactly when the context text is non-empty, and always ends with `User: <message>\nAssistant:` |
| `BackendChat.UserPrompt` | backend/src/chat/chat.service.ts:31-36 | the prompt of a turn has a context section exactly when the joined passage texts are non-empty |
| `BackendChat.JoinEmptyIff` | backend/src/chat/chat.service.ts:31-34 | the joined context is empty exactly for zero passages, or for one passage with empty text |
| `BackendChat.SplitJoin` | backend/src/chat/chat.service.ts:31 | splitting the joined context at line breaks gives back the texts, when no text contains a line break |
| `BackendChat.PromptSections` | backend/src/chat/chat.service.ts:34-36 | the prompt opens with `Context:\n` exactly when there is passage text; two or more passages always produce that section. The prompt always ends with `User: <message>\nAssistant:` |
| `BackendChat.PromptTwoPassages` | backend/src/chat/chat.service.ts:31-36 | texts `a` and `b` give `Context:\na\nb\n\nUser: <message>\nAssistant:` |
| `BackendChat.GreetingPrompt` | backend/src/chat/chat.service.ts:31-36 | one passage `prior greeting` gives `Context:\nprior greeting\n\nUser: <message>\nAssistant:` |
| `BackendChat.NoContextPrompt` | backend/src/chat/chat.service.ts:31-36 | with no retrieved passage the prompt is exactly `User: <message>\nAssistant:`, with no context section |
| `BackendChat.CompletionPrompt` | backend/src/chat/chat.service.ts:39-53 | after a successful search, the completion is requested with `gpt-4`, the fixed system instruction, the assembled prompt, temperature 0.7 and 500 tokens |
| `BackendChat.Turn` | backend/src/chat/chat.service.ts:25-79 | every turn makes one to five calls, the first a search for the message with k = 5. A successful turn returns the record it stored |
| `BackendChat.Persist` | backend/src/chat/chat.service.ts:58-79 | once the completion has answered, the turn's remaining calls are the save with the record's fields, then at most the two re-index calls. The record is stored exactly when it passes the schema and the database accepts it. Success returns that stored record |
| `BackendChat.TurnFollowsProtocol` | backend/src/chat/chat.service.ts:30-72 | the calls of every turn are a non-empty prefix of search, completion, save, addText, addText. The first call is a search for the message with k = 5 |
| `BackendChat.StepsNeedEarlierSuccess` | backend/src/chat/chat.service.ts:30-72 | the completion is reached exactly when the search succeeded. The save is reached exactly when the completion also returned a choice. The two addText calls are made exactly when the record was stored |
| `BackendChat.NoSaveAfterFailedCompletion` | backend/src/chat/chat.service.ts:30-66 | after a failed search or completion, no save call is made and nothing is stored |
| `BackendChat.EveryFailureSurfaces` | backend/src/chat/chat.service.ts:75-78 | every failure is the one error `Failed to process chat message`. A turn succeeds exactly when the record is stored and both addText calls succeed. The record is stored exactly when search and completion succeeded, the first choice is a non-empty string, the request fields are non-empty and the database accepts the write |
| `BackendChat.PersistedYetFailed` | backend/src/chat/chat.service.ts:66-77 | when the save succeeded but an addText failed, the record stays stored and the turn still throws |
| `BackendChat.SavedRecord` | backend/src/chat/chat.service.ts:58-74 | the stored record has the input user and message unchanged and the first choice as its response. Its context is the passages' texts in retrieval order, and it is stamped with the turn's time. A successful turn returns that same record |
| `BackendChat.ReindexCalls` | backend/src/chat/chat.service.ts:69-72 | a turn that stored its record makes exactly two addText calls: first the message with `{userId, timestamp}`, then the response with `{userId, timestamp, isResponse: true}` |
| `BackendChat.InvalidDtoNeverStored` | backend/src/chat/dto/create-chat.dto.ts:4-10 | a request with an empty `userId` or `message` is never stored and the turn throws, although the search is still made first |
| `BackendChat.GreetingScenario` | backend/src/chat/chat.service.ts:25-74 | message `hello` from `u1`, one retrieved `prior greeting` and the reply `Hi there!` return the record with exactly those fields and context `["prior greeting"]` |
| `BackendChat.ChatService.CreateChat` | backend/src/chat/chat.service.ts:25-79 | one turn returns what `Turn` says, appends `Turn`'s calls to the log, and appends to the store only the record `Turn` saved. Every stored record stays valid |
| `BackendChat.ChatService.Store` | backend/src/chat/chat.service.ts:58-79 | the save stage of a turn returns what `Persist` says, appends `Persist`'s calls to the log and appends only the record `Persist` saved. Every stored record stays valid |
| `BackendChat.OwnedBy` | backend/src/chat/chat.service.ts:84 | keeps exactly the records of the user, each as often as it is stored |
| `BackendChat.SortNewestFirst` | backend/src/chat/chat.service.ts:85 | the result is ordered by `createdAt`, newest first, and is a permutation of the input |
| `BackendChat.ChatService.GetChatHistory` | backend/src/chat/chat.service.ts:81-90 | the history holds exactly the user's stored records, with multiplicity, newest first. Every record in it satisfies the schema, so each has a non-empty response. The only failure is `Failed to fetch chat history`, raised exactly when the query fails |
| `BackendChat.UnknownUserHasEmptyHistory` | backend/src/chat/chat.service.ts:83-86 | a user with no stored record gets an empty history, not an error |
| `FrontendChat.TrimStart` | frontend/src/app/components/chat/chat.component.ts:129 | removes exactly the leading white space: the result is a suffix whose first character is not white space |
| `FrontendChat.TrimEnd` | frontend/src/app/components/chat/chat.component.ts:129 | removes exactly the trailing white space: the result is a prefix whose last character is not white space |
| `FrontendChat.Trim` | frontend/src/app/components/chat/chat.component.ts:129 | the trimmed text is no longer than the input and is empty or begins and ends with a non-white-space character |
| `FrontendChat.Accepts` | frontend/src/app/components/chat/chat.component.ts:129 | a send is accepted exactly when no request is in flight and the message has a character that is not white space |
| `FrontendChat.BlankIff` | frontend/src/app/components/chat/chat.component.ts:129 | the trimmed message is empty exactly when every character is white space |
| `FrontendChat.ReplyMessages` | frontend/src/app/components/chat/chat.component.ts:144-157 | a truthy reply adds one bot message carrying its text. A falsy reply adds nothing, and an error adds the fixed apology. Every added message is a bot message |
| `FrontendChat.ChatComponent.constructor` | frontend/src/app/components/chat/chat.component.ts:112-114 | the component starts with no messages, an empty input and loading off |
| `FrontendChat.ChatComponent.Begin` | frontend/src/app/components/chat/chat.component.ts:128-143 | a blank message or a send in flight changes nothing. Otherwise one user message holding the untrimmed text is appended, the input is cleared, loading is set, and that same untrimmed text is sent |
| `FrontendChat.ChatComponent.Finish` | frontend/src/app/components/chat/chat.component.ts:143-160 | appends exactly the reply messages for the outcome and clears loading whatever the outcome. It leaves the input being typed alone |
| `FrontendChat.SendRound` | frontend/src/app/components/chat/chat.component.ts:128-161 | an accepted send keeps every earlier message unchanged and adds one or two, the first being the user's own. Loading is off at the end |
| `FrontendChat.SecondSendRefused` | frontend/src/app/components/chat/chat.component.ts:129-140 | while a send is in flight, another send is refused. The messages, the input, the loading flag and the request in flight stay as they were |
| `BaseVectorDb.BaseVectorDB.constructor` | vector-db/app/services/base_vector_db.py:32-34 | the collection name and dimension are stored unchanged |
| `BaseVectorDb.FormatMetadata` | vector-db/app/services/base_vector_db.py:40-42 | `""` for `None` or `{}`, and `str(metadata)` for a non-empty dictionary |
| `BaseVectorDb.ParseMetadata` | vector-db/app/services/base_vector_db.py:44-49 | `{}` for `""` and `{}` whenever evaluation raises; otherwise the evaluated value. It is total, so it never raises |
| `BaseVectorDb.EmptyMetadataRoundTrip` | vector-db/app/services/base_vector_db.py:42-47 | `None` and `{}` come back from format and parse as `{}`, whatever `str` and `eval` do |
| `PineconeDb.Connect` | vector-db/app/services/pinecone_db.py:12-19 | succeeds exactly when both the API key and the environment are set and non-empty, and passes them on. Otherwise it raises the `ValueError` |
| `PineconeDb.Digits` | vector-db/app/services/pinecone_db.py:43 | the decimal text of a timestamp is all digits, and is one digit exactly below 10. From 10 up it has no leading zero |
| `PineconeDb.VectorId` | vector-db/app/services/pinecone_db.py:43 | the id is `vec_` followed by one or more decimal digits |
| `PineconeDb.DigitsInjective` | vector-db/app/services/pinecone_db.py:43 | different timestamps have different decimal texts |
| `PineconeDb.VectorIdSameSecond` | vector-db/app/services/pinecone_db.py:43 | two inserts share a vector id exactly when their timestamps are equal |
| `PineconeDb.Pack` | vector-db/app/services/pinecone_db.py:46-50 | the stored metadata has every caller key plus `text` and `timestamp`. Those two hold the text and the timestamp and override caller keys of the same name; every other key keeps its value |
| `PineconeDb.Unpack` | vector-db/app/services/pinecone_db.py:65-70 | a result's text is the stored `text`, or `""` when absent. Its timestamp is the stored `timestamp`, or `0` when absent. Its metadata is the match's metadata without those two keys, and its distance is the score |
| `PineconeDb.SearchResults` | vector-db/app/services/pinecone_db.py:57-70 | exactly one result per match, in match order |
| `PineconeDb.UnpackPacked` | vector-db/app/services/pinecone_db.py:46-69 | unpacking a packed entry always gives back the text and the timestamp. The caller's metadata comes back without any `text` or `timestamp` key of its own |
| `PineconeDb.RoundTrip` | vector-db/app/services/pinecone_db.py:46-69 | caller metadata without `text` or `timestamp` keys, and the text and timestamp, all come back unchanged |
| `PineconeDb.PineconeDB.Open` | vector-db/app/services/pinecone_db.py:7-29 | construction raises exactly when the credential check fails or a Pinecone library call raises. The credential `ValueError` comes first, and a library exception is passed on unchanged. Otherwise it keeps the name and dimension and opens the existing index of that name, or a new empty one |
| `PineconeDb.PineconeDB.OpenDefault` | vector-db/app/services/pinecone_db.py:7-10 | construction without arguments uses the collection `chat-embeddings` of dimension 1536. It raises exactly when `Open` does |
| `PineconeDb.PineconeDB.Insert` | vector-db/app/services/pinecone_db.py:40-55 | a non-empty caller dictionary gets `text` and `timestamp` merged into it in place, while `None` or `{}` is left alone. The index gets the packed metadata under `vec_<timestamp>`, replacing what was there; nothing else changes |
| `PineconeDb.PineconeDB.DeleteByTimestamp` | vector-db/app/services/pinecone_db.py:72-77 | the index is unchanged |
| `PineconeDb.SameSecondInserts` | vector-db/app/services/pinecone_db.py:42-55 | two inserts in the same second leave exactly one vector under the shared id: the second embedding with the second caller's metadata packed with the second text. Nothing of the first insert survives there. Whatever dictionaries the callers pass, the same one twice included, every other id keeps its vector |
| `PineconeDb.OtherSecondsKept` | vector-db/app/services/pinecone_db.py:42-55 | an insert at another second, with any caller dictionary, leaves an existing vector untouched |
| `VectorDbFactory.Lower` | vector-db/app/services/vector_db_factory.py:11 | lower-casing keeps the length and lower-cases each character |
| `VectorDbFactory.LowerSpelling` | vector-db/app/services/vector_db_factory.py:11 | a lower-case word spelled in any mix of cases lower-cases to itself |
| `VectorDbFactory.CreateVectorDb` | vector-db/app/services/vector_db_factory.py:6-18 | an unset variable selects Milvus. The collection name and dimension pass through unchanged to the selected backend |
| `VectorDbFactory.CreateVectorDbDefaults` | vector-db/app/services/vector_db_factory.py:6-18 | without arguments the selected backend gets the collection `chat_embeddings` of dimension 1536. An unset variable selects Milvus with those values |
| `VectorDbFactory.PineconeAnyCase` | vector-db/app/services/vector_db_factory.py:11-16 | `pinecone` in any case selects Pinecone |
| `VectorDbFactory.MilvusAnyCase` | vector-db/app/services/vector_db_factory.py:11-14 | `milvus` in any case selects Milvus |
| `VectorDbFactory.CaseInsensitive` | vector-db/app/services/vector_db_factory.py:11 | values that lower-case alike select alike |
| `VectorDbFactory.OtherValuesRaise` | vector-db/app/services/vector_db_factory.py:11-18 | any other value raises a `ValueError` carrying the lower-cased value. A variable set to `""` raises too and does not fall back to Milvus |

## Left out

- HTTP plumbing is not modelled: the NestJS controllers, the backend's HTTP client to the
  vector service, the frontend's HTTP service and the FastAPI app. The search, the addText
  calls, the completion and the database write are only abstract outcomes.
- The cross-service wire mismatches are not modelled. The backend posts `{text, metadata}`
  to `/add`, which the Python service does not expose; it has `/embed` instead. The backend
  posts `{query, k}` to `/search`, where the Python service reads `limit`, so `k` is
  ignored. The Python service answers `{"results": ...}` rather than a list. The frontend
  posts to `/chat` without a user id.
- The Milvus backend and the `vector_db.py` wrapper are not modelled. Their behaviour is
  that of the pymilvus library. The running service sends every request through
  `vector_db.py`'s `VectorDBService`, not through the factory, so it never reaches
  `create_vector_db` or `PineconeDB`.
- Similarity ranking, embeddings and completion generation are external. Scores, embedding
  coordinates and the temperature are carried through unexamined.
- `BackendChat.Collaborators`: one clock reading per turn stands for the record's creation
  time, its update time and both `new Date()` tags. The model does not distinguish those
  four readings.
- `BackendChat.SortNewestFirst`: records with equal `createdAt` come out in a fixed order.
  MongoDB leaves that order unspecified, so the contracts state only "newest first" and "a
  permutation".
- `BackendChat.ChatService.CreateChat`: the two re-index calls run concurrently under
  `Promise.all`. The model issues both, message first, and fails if either fails. Which one
  finishes first is not observable and is not modelled.
- `BackendChat.ChatService.CreateChat` runs each turn as one atomic step. In the service,
  concurrent `createChat` calls interleave at every `await`: the search, the completion,
  the save and the re-index calls. Their calls and stored records can then alternate
  between turns. Interleaving between turns is not modelled.
- The request fields are modelled as strings. A request body without `message` (JavaScript
  `undefined`) is not modelled.
- Logging (`Logger.error`, `console.error`) is not modelled.
- The Angular template, styles and `scrollToBottom` are not modelled.
- `FrontendChat.ChatComponent.Finish` requires an accepted `Begin` before it, because it
  is the continuation of the `await` in `sendMessage`.
- `PineconeDb`: Python dictionaries are modelled as maps, so insertion order is lost.
  Metadata keys are strings.
- `PineconeDb.PineconeDB.Insert`: the timestamp is a natural number, as `int(time.time())`
  is for any clock after 1970. Pinecone's own rejections of metadata or upserts are not
  modelled: the upsert always succeeds.
- `PineconeDb.PineconeDB.Open`: why a Pinecone library call raises is not modelled. An
  invalid key, or an index name the service refuses, is just a given library outcome. The
  model does not check that an existing index has the requested dimension.
- `PineconeDb.SearchResults`: the query itself (`index.query` with `top_k`) is external, so
  its matches are an input.
- `PineconeDB.connect` repeats the credential check (`PineconeDb.Connect`).
  `PineconeDB.disconnect` does nothing.
- `VectorDbFactory.Lower`: only ASCII letters are lower-cased. Python's `str.lower` also
  maps other letters. None of them lower-cases to the ASCII names `milvus` or `pinecone`,
  so the selection is unaffected. Only the text of the error message can differ.
- `VectorDbFactory.CreateVectorDb` returns which backend constructor is called and with
  what arguments. What that constructor then does is out of scope: for Pinecone, see
  `PineconeDb.PineconeDB.Open`.
- Python's `str` and `eval` on dictionaries are function parameters, not definitions.

=== FILE: backend_chat.dfy ===
/** The backend's chat turn (`ChatService.createChat`) and history query
    (`ChatService.getChatHistory`).

    A turn searches the vector service for passages similar to the message, builds a prompt
    from their texts, asks the completion service for a reply, saves a `Chat` record and
    re-indexes both the message and the reply. Every collaborator is an abstract outcome
    (`Collaborators`); the service keeps the record store and a log of the calls it made. */
module BackendChat {
  import opened Wrappers
  import opened PyValues
  import opened ChatSchema

  /** The request body of a turn. */
  datatype CreateChatDto = CreateChatDto(userId: string, message: string)

  /** The class-validator rule on the request body: both fields are non-empty strings.
      `createChat` does not check it itself. */
  predicate ValidDto(dto: CreateChatDto)
  {
    dto.userId != "" && dto.message != ""
  }

  /** One passage returned by the similarity search. */
  datatype Passage = Passage(text: string, metadata: Metadata, similarity: Float)

  /** The tags sent with a text to be indexed; `isResponse` is `None` when the key is absent. */
  datatype TextTags = TextTags(userId: string, timestamp: Millis, isResponse: Option<bool>)

  /** The calls a turn makes to its collaborators, in the order it makes them. */
  datatype Call =
    | SearchSimilar(query: string, k: int)
    | CreateCompletion(model: string, systemPrompt: string, userPrompt: string,
                       temperature: real, maxTokens: int)
    | Save(fields: ChatFields)
    | AddText(text: string, tags: TextTags)

  /** The error the service throws: an HTTP 500 with a fixed message. */
  datatype HttpError = InternalServerError(message: string)

  const ProcessChatFailed := "Failed to process chat message"
  const FetchHistoryFailed := "Failed to fetch chat history"

  /** The search asks for the five nearest passages unless told otherwise. */
  const DefaultK := 5
  const CompletionModel := "gpt-4"
  const SystemPrompt := "You are a helpful AI assistant with access to previous conversation context. Use this context to provide more relevant and consistent responses."
  const Temperature := 0.7
  const MaxTokens := 500
  const ContextHeader := "Context:\n"

  /** What each collaborator does during one turn. `completion` lists the `content` of every
      returned choice (`None` for a `null` content); `storeUp` says whether the database
      accepts the write; `now` is the clock for the record and for the index tags. */
  datatype Collaborators = Collaborators(
    search: Outcome<seq<Passage>>,
    completion: Outcome<seq<Option<string>>>,
    storeUp: bool,
    messageIndexed: bool,
    responseIndexed: bool,
    now: Millis)

  /** Everything one turn does: the calls it made, the record it stored (if any) and what
      it returned or threw. */
  datatype TurnTrace = TurnTrace(calls: seq<Call>, saved: Option<Chat>, result: Result<Chat, HttpError>)

  // ---------------------------------------------------------------------------------------
  // Prompt assembly

  /** The passages' texts in retrieval order: what the record stores as its context. */
  function Texts(ps: seq<Passage>): (ts: seq<string>)
    ensures |ts| == |ps|
    ensures forall i :: 0 <= i < |ps| ==> ts[i] == ps[i].text
  {
    if ps == [] then [] else [ps[0].text] + Texts(ps[1..])
  }

  function TotalLength(xs: seq<string>): nat
  {
    if xs == [] then 0 else |xs[0]| + TotalLength(xs[1..])
  }

  /** JavaScript's `xs.join('\n')`: the strings with one line break between neighbours. */
  function JoinLines(xs: seq<string>): (r: string)
    ensures xs == [] ==> r == ""
    ensures xs != [] ==> |r| == TotalLength(xs) + |xs| - 1
    ensures xs != [] ==> r[..|xs[0]|] == xs[0]
  {
    if xs == [] then ""
    else if |xs| == 1 then xs[0]
    else xs[0] + "\n" + JoinLines(xs[1..])
  }

  /** The user prompt: a context section first when the joined context is non-empty (a
      non-empty string is truthy), then the user's message and the assistant cue. */
  function BuildPrompt(contextText: string, message: string): (r: string)
    ensures HasContextSection(r) <==> contextText != ""
    ensures var tail := "User: " + message + "\nAssistant:";
      |tail| <= |r| && r[|r| - |tail|..] == tail
  {
    assert ("User: " + message + "\nAssistant:")[0] == 'U';
    if contextText != "" then ContextHeader + contextText + "\n\nUser: " + message + "\nAssistant:"
    else "User: " + message + "\nAssistant:"
  }

  /** The prompt a turn sends for the passages it retrieved. */
  function UserPrompt(ps: seq<Passage>, message: string): (r: string)
    ensures HasContextSection(r) <==> JoinLines(Texts(ps)) != ""
  {
    BuildPrompt(JoinLines(Texts(ps)), message)
  }

  predicate HasContextSection(prompt: string)
  {
    |ContextHeader| <= |prompt| && prompt[..|ContextHeader|] == ContextHeader
  }

  /** The index of the first line break of `s`. */
  function FirstNewline(s: string): (i: nat)
    requires '\n' in s
    ensures i < |s| && s[i] == '\n' && '\n' !in s[..i]
  {
    if s[0] == '\n' then 0
    else
      var j := FirstNewline(s[1..]);
      assert s[1..][..j] == s[1..j + 1];
      1 + j
  }

  /** JavaScript's `s.split('\n')`: the pieces between line breaks (one piece for no break). */
  function SplitLines(s: string): (parts: seq<string>)
    ensures |parts| > 0
    decreases |s|
  {
    if '\n' in s then
      var i := FirstNewline(s);
      [s[..i]] + SplitLines(s[i + 1..])
    else [s]
  }

  /** The joined context is empty exactly when there is no passage text at all: no
      passages, or a single passage whose text is empty. */
  lemma {:induction false} JoinEmptyIff(xs: seq<string>)
    ensures JoinLines(xs) == "" <==> |xs| == 0 || (|xs| == 1 && xs[0] == "")
  {
    if |xs| >= 2 {
      assert |JoinLines(xs)| >= 1;
    }
  }

  lemma FirstNewlineAt(s: string, n: nat)
    requires n < |s| && s[n] == '\n' && '\n' !in s[..n]
    ensures '\n' in s && FirstNewline(s) == n
  {
    assert s[n] in s;
  }

  /** Joining loses nothing: texts without line breaks are recovered by splitting. */
  lemma {:induction false} SplitJoin(xs: seq<string>)
    requires xs != []
    requires forall i :: 0 <= i < |xs| ==> '\n' !in xs[i]
    ensures SplitLines(JoinLines(xs)) == xs
  {
    if |xs| > 1 {
      var rest := JoinLines(xs[1..]);
      var s := JoinLines(xs);
      var n := |xs[0]|;
      assert s == xs[0] + "\n" + rest;
      assert s[..n] == xs[0] && s[n] == '\n' && s[n + 1..] == rest;
      FirstNewlineAt(s, n);
      SplitJoin(xs[1..]);
      assert xs == [xs[0]] + xs[1..];
    }
  }

  /** The context section is left out exactly when the joined texts are empty; two or more
      passages always produce it. Either way the prompt ends with the message and the cue. */
  lemma PromptSections(ps: seq<Passage>, message: string)
    ensures HasContextSection(UserPrompt(ps, message)) <==>
      !(|ps| == 0 || (|ps| == 1 && ps[0].text == ""))
    ensures |ps| >= 2 ==> HasContextSection(UserPrompt(ps, message))
    ensures var p := UserPrompt(ps, message);
      var tail := "User: " + message + "\nAssistant:";
      |tail| <= |p| && p[|p| - |tail|..] == tail
  {
    JoinEmptyIff(Texts(ps));
  }

  /** Two passages "a" and "b" give the prompt with both lines in retrieval order. */
  lemma PromptTwoPassages(a: Passage, b: Passage, message: string)
    requires a.text == "a" && b.text == "b"
    ensures UserPrompt([a, b], message) == "Context:\n" + "a" + "\n" + "b" + "\n\nUser: " + message + "\nAssistant:"
  {
    assert Texts([a, b]) == ["a", "b"];
    assert ["a", "b"][1..] == ["b"];
    assert JoinLines(["a", "b"]) == "a" + "\n" + "b";
  }

  // ---------------------------------------------------------------------------------------
  // The protocol of one turn

  /** The record fields a turn hands to the model constructor. */
  function TurnFields(dto: CreateChatDto, ps: seq<Passage>, content: Option<string>): ChatFields
  {
    ChatFields(Some(dto.userId), Some(dto.message), content, Some(Texts(ps)))
  }

  /** What one call of `createChat` does, step by step: search, prompt, completion, save,
      then two re-index calls issued together; every failure is rethrown as one error. */
  function Turn(dto: CreateChatDto, env: Collaborators): (t: TurnTrace)
    ensures 1 <= |t.calls| <= 5 && t.calls[0] == SearchSimilar(dto.message, DefaultK)
    ensures t.result.Success? ==> t.saved == Some(t.result.value)
  {
    var search := SearchSimilar(dto.message, DefaultK);
    if env.search.Failed? then TurnTrace([search], None, Failure(InternalServerError(ProcessChatFailed)))
    else
      var ps := env.search.value;
      var complete := CreateCompletion(CompletionModel, SystemPrompt, UserPrompt(ps, dto.message),
                                       Temperature, MaxTokens);
      // `completion.choices[0].message` throws a TypeError when there is no choice
      if env.completion.Failed? || env.completion.value == [] then
        TurnTrace([search, complete], None, Failure(InternalServerError(ProcessChatFailed)))
      else
        var rest := Persist(dto, ps, env.completion.value[0], env);
        TurnTrace([search, complete] + rest.calls, rest.saved, rest.result)
  }

  /** The rest of a turn once the completion has answered: save the record, then re-index
      the message and the response. */
  function Persist(dto: CreateChatDto, ps: seq<Passage>, content: Option<string>,
                   env: Collaborators): (t: TurnTrace)
    ensures 1 <= |t.calls| <= 3 && t.calls[0] == Save(TurnFields(dto, ps, content))
    ensures t.saved.Some? <==> Validate(TurnFields(dto, ps, content), env.now).Success? && env.storeUp
    ensures t.result.Success? ==> t.saved == Some(t.result.value)
  {
    var fields := TurnFields(dto, ps, content);
    var upTo := [Save(fields)];
    var doc := Validate(fields, env.now);
    if doc.Failure? || !env.storeUp then
      TurnTrace(upTo, None, Failure(InternalServerError(ProcessChatFailed)))
    else
      var reindex := [AddText(dto.message, TextTags(dto.userId, env.now, None)),
                      AddText(doc.value.response, TextTags(dto.userId, env.now, Some(true)))];
      TurnTrace(upTo + reindex, Some(doc.value),
                if env.messageIndexed && env.responseIndexed then Success(doc.value)
                else Failure(InternalServerError(ProcessChatFailed)))
  }

  datatype CallKind = KSearch | KComplete | KSave | KAddText

  function KindOf(c: Call): CallKind
  {
    match c
    case SearchSimilar(_, _) => KSearch
    case CreateCompletion(_, _, _, _, _) => KComplete
    case Save(_) => KSave
    case AddText(_, _) => KAddText
  }

  /** The only order in which a turn may call its collaborators. */
  const ProtocolOrder := [KSearch, KComplete, KSave, KAddText, KAddText]

  /** The calls of every turn follow the protocol order, stopping somewhere along it. */
  lemma TurnFollowsProtocol(dto: CreateChatDto, env: Collaborators)
    ensures var t := Turn(dto, env);
      && 1 <= |t.calls| <= |ProtocolOrder|
      && (forall i :: 0 <= i < |t.calls| ==> KindOf(t.calls[i]) == ProtocolOrder[i])
    ensures Turn(dto, env).calls[0] == SearchSimilar(dto.message, DefaultK)
  {
  }

  /** Each step is reached only when every earlier step succeeded. */
  lemma StepsNeedEarlierSuccess(dto: CreateChatDto, env: Collaborators)
    ensures var t := Turn(dto, env);
      && (|t.calls| >= 2 <==> env.search.Done?)
      && (|t.calls| >= 3 <==> env.search.Done? && env.completion.Done? && env.completion.value != [])
      && (|t.calls| == 5 <==> t.saved.Some?)
  {
  }

  /** A failed search or completion means save is never called and nothing is stored. */
  lemma NoSaveAfterFailedCompletion(dto: CreateChatDto, env: Collaborators)
    requires env.search.Failed? || env.completion.Failed?
    ensures Turn(dto, env).saved.None?
    ensures forall c :: c in Turn(dto, env).calls ==> !c.Save?
  {
  }

  /** Every failure, whichever collaborator caused it, surfaces as the same single error;
      the turn succeeds only when the record is stored and both re-index calls succeed. */
  lemma EveryFailureSurfaces(dto: CreateChatDto, env: Collaborators)
    ensures Turn(dto, env).result.Failure? ==>
      Turn(dto, env).result.error == InternalServerError(ProcessChatFailed)
    ensures Turn(dto, env).result.Success? <==>
      Turn(dto, env).saved.Some? && env.messageIndexed && env.responseIndexed
    ensures Turn(dto, env).saved.Some? <==>
      && env.search.Done? && env.completion.Done? && env.completion.value != []
      && RequiredString(env.completion.value[0]) && ValidDto(dto) && env.storeUp
  {
  }

  /** A re-index failure after a successful save leaves the record stored, yet the turn
      still throws. */
  lemma PersistedYetFailed(dto: CreateChatDto, env: Collaborators)
    requires Turn(dto, env).saved.Some?
    requires !env.messageIndexed || !env.responseIndexed
    ensures Turn(dto, env).result == Failure(InternalServerError(ProcessChatFailed))
    ensures |Turn(dto, env).calls| == 5
  {
  }

  /** The stored record keeps the message and user unchanged, holds the first choice as its
      response and the passages' texts, in retrieval order, as its context; a successful
      turn returns exactly that record. */
  lemma SavedRecord(dto: CreateChatDto, env: Collaborators)
    requires Turn(dto, env).saved.Some?
    ensures var c := Turn(dto, env).saved.value;
      && c.userId == dto.userId && c.message == dto.message
      && env.completion.Done? && env.completion.value != [] && Some(c.response) == env.completion.value[0]
      && env.search.Done? && |c.context| == |env.search.value|
      && (forall i :: 0 <= i < |c.context| ==> c.context[i] == env.search.value[i].text)
      && c.createdAt == env.now && c.updatedAt == env.now
      && ValidChat(c)
    ensures Turn(dto, env).result.Success? ==> Turn(dto, env).result.value == Turn(dto, env).saved.value
  {
  }

  /** A turn that stored its record makes exactly two re-index calls: the message, tagged
      with the user and time, and the response, tagged also as a response. */
  lemma ReindexCalls(dto: CreateChatDto, env: Collaborators)
    requires Turn(dto, env).saved.Some?
    ensures var t := Turn(dto, env);
      && t.calls[3] == AddText(dto.message, TextTags(dto.userId, env.now, None))
      && t.calls[4] == AddText(t.saved.value.response, TextTags(dto.userId, env.now, Some(true)))
      && (forall i :: 0 <= i < |t.calls| && t.calls[i].AddText? ==> i == 3 || i == 4)
  {
  }

  /** A request body that breaks the validity rule is never stored: the save rejects it
      after the search and the completion have already been made. */
  lemma InvalidDtoNeverStored(dto: CreateChatDto, env: Collaborators)
    requires !ValidDto(dto)
    ensures Turn(dto, env).saved.None?
    ensures Turn(dto, env).result.Failure?
    ensures Turn(dto, env).calls[0] == SearchSimilar(dto.message, DefaultK)
  {
  }

  /** The worked example: one retrieved greeting and the reply "Hi there!" give the record
      that keeps the greeting as its only context. */
  lemma GreetingScenario(env: Collaborators, p: Passage)
    requires p.text == "prior greeting"
    requires env.search == Done([p]) && env.completion == Done([Some("Hi there!")])
    requires env.storeUp && env.messageIndexed && env.responseIndexed
    ensures Turn(CreateChatDto("u1", "hello"), env).result ==
      Success(Chat("u1", "hello", "Hi there!", ["prior greeting"], env.now, env.now))
  {
    var dto := CreateChatDto("u1", "hello");
    EveryFailureSurfaces(dto, env);
    SavedRecord(dto, env);
    assert Turn(dto, env).saved.value.context == ["prior greeting"];
  }

  /** The prompt of the worked example. */
  lemma GreetingPrompt(p: Passage, message: string)
    requires p.text == "prior greeting"
    ensures UserPrompt([p], message) == "Context:\n" + "prior greeting" + "\n\nUser: " + message + "\nAssistant:"
  {
    assert Texts([p]) == ["prior greeting"];
  }

  /** With no retrieved passage the prompt is only the message and the assistant cue. */
  lemma NoContextPrompt(message: string)
    ensures UserPrompt([], message) == "User: " + message + "\nAssistant:"
  {
  }

  /** The completion is asked with the fixed model, instruction and sampling settings and
      the prompt built from the retrieved passages. */
  lemma CompletionPrompt(dto: CreateChatDto, env: Collaborators)
    requires env.search.Done?
    ensures |Turn(dto, env).calls| >= 2
    ensures Turn(dto, env).calls[1] ==
      CreateCompletion(CompletionModel, SystemPrompt, UserPrompt(env.search.value, dto.message),
                       Temperature, MaxTokens)
  {
  }

  // ---------------------------------------------------------------------------------------
  // History ordering

  /** `key` never increases along the sequence. */
  predicate Descending<T>(xs: seq<T>, key: T -> int)
  {
    forall i, j :: 0 <= i < j < |xs| ==> key(xs[i]) >= key(xs[j])
  }

  function CreatedAt(c: Chat): Millis
  {
    c.createdAt
  }

  /** Newest first: `createdAt` never increases along the sequence. */
  predicate NewestFirst(cs: seq<Chat>)
  {
    Descending(cs, CreatedAt)
  }

  /** The records of one user, with their multiplicities, in store order. */
  function OwnedBy(cs: seq<Chat>, userId: string): (r: seq<Chat>)
    ensures forall c :: multiset(r)[c] == if c.userId == userId then multiset(cs)[c] else 0
  {
    if cs == [] then []
    else
      var rest := OwnedBy(cs[1..], userId);
      assert cs == [cs[0]] + cs[1..];
      if cs[0].userId == userId then [cs[0]] + rest else rest
  }

  lemma DescendingCons<T>(head: T, rest: seq<T>, key: T -> int)
    requires Descending(rest, key)
    requires rest != [] ==> key(head) >= key(rest[0])
    ensures Descending([head] + rest, key)
  {
    var r := [head] + rest;
    forall i, j | 0 <= i < j < |r|
      ensures key(r[i]) >= key(r[j])
    {
      if i == 0 {
        assert key(rest[0]) >= key(rest[j - 1]);
      }
    }
  }

  function InsertDescending<T>(x: T, xs: seq<T>, key: T -> int): (r: seq<T>)
    requires Descending(xs, key)
    ensures Descending(r, key)
    ensures multiset(r) == multiset(xs) + multiset{x}
    ensures r[0] == x || (xs != [] && r[0] == xs[0])
  {
    if xs == [] || key(x) >= key(xs[0]) then [x] + xs
    else
      var rest := InsertDescending(x, xs[1..], key);
      assert xs == [xs[0]] + xs[1..];
      DescendingCons(xs[0], rest, key);
      [xs[0]] + rest
  }

  /** The records sorted by `createdAt`, newest first (a stable insertion sort). */
  function SortNewestFirst(cs: seq<Chat>): (r: seq<Chat>)
    ensures NewestFirst(r)
    ensures multiset(r) == multiset(cs)
  {
    if cs == [] then []
    else
      assert cs == [cs[0]] + cs[1..];
      InsertDescending(cs[0], SortNewestFirst(cs[1..]), CreatedAt)
  }

  // ---------------------------------------------------------------------------------------
  // The service

  class ChatService {
    /** The `chats` collection, in insertion order. */
    var store: seq<Chat>
    /** Every call the service has made to its collaborators. */
    var log: seq<Call>

    /** Every stored record satisfies the schema. */
    ghost predicate Valid()
      reads this
    {
      forall c :: c in store ==> ValidChat(c)
    }

    constructor ()
      ensures Valid() && store == [] && log == []
    {
      store := [];
      log := [];
    }

    /** One chat turn. The result, the calls made and the new store are those of `Turn`. */
    method CreateChat(dto: CreateChatDto, env: Collaborators) returns (r: Result<Chat, HttpError>)
      requires Valid()
      modifies this
      ensures Valid()
      ensures r == Turn(dto, env).result
      ensures log == old(log) + Turn(dto, env).calls
      ensures store == old(store) + (match Turn(dto, env).saved case Some(c) => [c] case None => [])
    {
      ghost var t := Turn(dto, env);
      var fail := Failure(InternalServerError(ProcessChatFailed));
      var search := SearchSimilar(dto.message, DefaultK);
      log := log + [search];
      if env.search.Failed? {
        assert t.calls == [search];
        return fail;
      }
      var context := env.search.value;
      var contextText := JoinLines(Texts(context));
      var prompt := BuildPrompt(contextText, dto.message);
      var complete := CreateCompletion(CompletionModel, SystemPrompt, prompt, Temperature, MaxTokens);
      log := log + [complete];
      assert log == old(log) + [search, complete];
      if env.completion.Failed? || env.completion.value == [] {
        assert t.calls == [search, complete];
        return fail;
      }
      var response := env.completion.value[0];
      ghost var rest := Persist(dto, context, response, env);
      assert t == TurnTrace([search, complete] + rest.calls, rest.saved, rest.result);
      r := Store(dto, context, response, env);
      assert log == old(log) + ([search, complete] + rest.calls);
    }

    /** The rest of a turn once the completion has answered: the save, then the two
        re-index calls issued together. */
    method Store(dto: CreateChatDto, ps: seq<Passage>, response: Option<string>, env: Collaborators)
      returns (r: Result<Chat, HttpError>)
      requires Valid()
      modifies this
      ensures Valid()
      ensures r == Persist(dto, ps, response, env).result
      ensures log == old(log) + Persist(dto, ps, response, env).calls
      ensures store == old(store) + (match Persist(dto, ps, response, env).saved case Some(c) => [c] case None => [])
    {
      var fail := Failure(InternalServerError(ProcessChatFailed));
      var fields := ChatFields(Some(dto.userId), Some(dto.message), response, Some(Texts(ps)));
      log := log + [Save(fields)];
      var chat := Validate(fields, env.now);
      if chat.Failure? || !env.storeUp {
        return fail;
      }
      store := store + [chat.value];
      log := log + [AddText(dto.message, TextTags(dto.userId, env.now, None)),
                    AddText(response.value, TextTags(dto.userId, env.now, Some(true)))];
      if !env.messageIndexed || !env.responseIndexed {
        return fail;
      }
      r := Success(chat.value);
    }

    /** The records of one user, newest first; a failing query becomes one fixed error. */
    function GetChatHistory(userId: string, storeUp: bool): (r: Result<seq<Chat>, HttpError>)
      requires Valid()
      reads this
      ensures r.Success? ==> forall c :: c in r.value ==> ValidChat(c)
      ensures r.Success? <==> storeUp
      ensures r.Failure? ==> r.error == InternalServerError(FetchHistoryFailed)
      ensures r.Success? ==> NewestFirst(r.value)
      ensures r.Success? ==>
        forall c :: multiset(r.value)[c] == if c.userId == userId then multiset(store)[c] else 0
    {
      if storeUp then Success(SortNewestFirst(OwnedBy(store, userId)))
      else Failure(InternalServerError(FetchHistoryFailed))
    }
  }

  /** A user with no stored record has an empty history, not an error. */
  lemma UnknownUserHasEmptyHistory(svc: ChatService, userId: string)
    requires svc.Valid()
    requires forall c :: c in svc.store ==> c.userId != userId
    ensures svc.GetChatHistory(userId, true) == Success([])
  {
  }
}

=== FILE: base_vector_db.dfy ===
/** The part every vector-store backend of the Python service shares (`BaseVectorDB`): the
    collection it works on and the helpers that turn metadata into a string and back.

    Python's `str` and `eval` on dictionaries are not modelled: the helpers take them as
    function parameters, so every statement below holds whatever they do. */
module BaseVectorDb {
  import opened Wrappers
  import opened PyValues

  /** The settings a backend is created with. */
  class BaseVectorDB {
    const collectionName: string
    const dimension: int

    constructor (collectionName: string, dimension: int)
      ensures this.collectionName == collectionName && this.dimension == dimension
    {
      this.collectionName := collectionName;
      this.dimension := dimension;
    }
  }

  /** Python truthiness of an optional dictionary: present and non-empty. */
  predicate IsTruthy(metadata: Option<Metadata>)
  {
    metadata.Some? && metadata.value != map[]
  }

  /** `_format_metadata`: `str(metadata)` for a non-empty dictionary, `""` for `None` or `{}`. */
  function FormatMetadata(metadata: Option<Metadata>, str: PyValue -> string): (r: string)
    ensures !IsTruthy(metadata) ==> r == ""
    ensures IsTruthy(metadata) ==> r == str(PDict(metadata.value))
  {
    if IsTruthy(metadata) then str(PDict(metadata.value)) else ""
  }

  /** `_parse_metadata`: evaluates a non-empty string, and gives `{}` for the empty string or
      when the evaluation raises. It returns a value for every input: it never raises. */
  function ParseMetadata(metadataStr: string, eval: string -> Result<PyValue, PyException>): (r: PyValue)
    ensures metadataStr == "" ==> r == PDict(map[])
    ensures eval(metadataStr).Failure? ==> r == PDict(map[])
    ensures metadataStr != "" && eval(metadataStr).Success? ==> r == eval(metadataStr).value
  {
    if metadataStr == "" then PDict(map[])
    else
      match eval(metadataStr)
      case Success(v) => v
      case Failure(_) => PDict(map[])
  }

  /** Empty metadata survives a format/parse round trip as `{}`, whatever `str` and `eval` do. */
  lemma EmptyMetadataRoundTrip(metadata: Option<Metadata>, str: PyValue -> string,
                               eval: string -> Result<PyValue, PyException>)
    requires metadata.None? || metadata == Some(map[])
    ensures ParseMetadata(FormatMetadata(metadata, str), eval) == PDict(map[])
  {
  }
}

=== FILE: chat_schema.dfy ===
/** The persisted `Chat` record of the backend and the rules Mongoose applies when a document
    is built from it and saved: required string paths, the empty-list default for `context`
    and the creation-time defaults of the two timestamps. */
module ChatSchema {
  import opened Wrappers

  /** Timestamps are milliseconds since the epoch, as JavaScript `Date.now()` gives them. */
  type Millis = int

  /** A stored chat record: one user message, the generated reply and the texts that were
      retrieved as context for it. Passage metadata and similarity are not part of it. */
  datatype Chat = Chat(
    userId: string,
    message: string,
    response: string,
    context: seq<string>,
    createdAt: Millis,
    updatedAt: Millis)

  /** The fields handed to `new chatModel({...})`; `None` is a field that is `undefined` or
      `null` (a completion whose content is `null` gives `response: None`). */
  datatype ChatFields = ChatFields(
    userId: Option<string>,
    message: Option<string>,
    response: Option<string>,
    context: Option<seq<string>>)

  /** Mongoose's validation error: the required paths that failed, in schema order. */
  datatype ValidationError = ValidationError(paths: seq<string>)

  /** Mongoose's `required` validator for a String path fails on a missing value and on the
      empty string alike. */
  predicate RequiredString(v: Option<string>)
  {
    v.Some? && v.value != ""
  }

  /** The required paths a set of fields fails, in declaration order. */
  function MissingPaths(f: ChatFields): (paths: seq<string>)
    ensures paths == [] <==>
      RequiredString(f.userId) && RequiredString(f.message) && RequiredString(f.response)
    ensures |paths| <= 3
  {
    (if RequiredString(f.userId) then [] else ["userId"])
    + (if RequiredString(f.message) then [] else ["message"])
    + (if RequiredString(f.response) then [] else ["response"])
  }

  /** Builds and validates a document the way `save()` does before writing it: every required
      path must hold a non-empty string, `context` defaults to `[]`, and both timestamps take
      the creation time `now`. */
  function Validate(f: ChatFields, now: Millis): (r: Result<Chat, ValidationError>)
    ensures r.Success? <==>
      RequiredString(f.userId) && RequiredString(f.message) && RequiredString(f.response)
    ensures r.Failure? ==> r.error.paths == MissingPaths(f) && r.error.paths != []
    ensures r.Success? ==>
      && Some(r.value.userId) == f.userId
      && Some(r.value.message) == f.message
      && Some(r.value.response) == f.response
      && r.value.context == (if f.context.Some? then f.context.value else [])
      && r.value.createdAt == now && r.value.updatedAt == now
    ensures r.Success? ==> ValidChat(r.value)
  {
    var missing := MissingPaths(f);
    if missing != [] then Failure(ValidationError(missing))
    else
      Success(Chat(f.userId.value, f.message.value, f.response.value,
                   if f.context.Some? then f.context.value else [], now, now))
  }

  /** What every stored record satisfies: its three required strings are present and
      non-empty, and it was never updated before it was created. */
  predicate ValidChat(c: Chat)
  {
    c.userId != "" && c.message != "" && c.response != "" && c.createdAt <= c.updatedAt
  }

  /** A record whose response is missing or empty (a `null` completion content) is rejected
      at save, and the rejection names the `response` path. */
  lemma MissingResponseRejected(f: ChatFields, now: Millis)
    requires f.response.None? || f.response == Some("")
    ensures Validate(f, now).Failure?
    ensures "response" in Validate(f, now).error.paths
  {
    MissingPathsNamed(f);
  }

  /** The validation error names exactly the required paths that fail. */
  lemma MissingPathsNamed(f: ChatFields)
    ensures "userId" in MissingPaths(f) <==> !RequiredString(f.userId)
    ensures "message" in MissingPaths(f) <==> !RequiredString(f.message)
    ensures "response" in MissingPaths(f) <==> !RequiredString(f.response)
  {
    var a := if RequiredString(f.userId) then [] else ["userId"];
    var b := if RequiredString(f.message) then [] else ["message"];
    var c := if RequiredString(f.response) then [] else ["response"];
    assert MissingPaths(f) == a + b + c;
    assert "userId" != "message" && "userId" != "response" && "message" != "response";
  }
}

=== FILE: frontend_chat.dfy ===
/** The chat view of the frontend (`ChatComponent`): the list of shown messages, the text
    being typed and the loading flag, and the send action that updates them.

    `sendMessage` runs in two parts around its `await`: `Begin` is the synchronous part that
    checks the guard, shows the user's message and returns the text to send; `Finish` is
    the continuation that shows the reply (or an apology) and clears the loading flag. */
module FrontendChat {
  import opened Wrappers

  /** Milliseconds since the epoch: the `Date` stamped on each message. */
  type Millis = int

  /** One shown message. */
  datatype Message = Message(text: string, isUser: bool, timestamp: Millis)

  /** The reply body the backend sends back. */
  datatype ChatResponse = ChatResponse(message: string)

  /** How the awaited request ended: a value (`None` for a falsy one such as `undefined`
      from an observable that completed without emitting) or a thrown error. */
  datatype SendOutcome = Replied(reply: Option<ChatResponse>) | Errored

  const Apology := "Sorry, there was an error processing your message."

  /** The characters `String.prototype.trim` removes: ECMAScript WhiteSpace and
      LineTerminator code points. */
  predicate IsTrimmable(c: char)
  {
    || c == '\t' || c == '\n' || c == '\U{000B}' || c == '\U{000C}' || c == '\r' || c == ' '
    || c == '\U{00A0}' || c == '\U{1680}' || ('\U{2000}' <= c <= '\U{200A}')
    || c == '\U{2028}' || c == '\U{2029}' || c == '\U{202F}' || c == '\U{205F}'
    || c == '\U{3000}' || c == '\U{FEFF}'
  }

  function TrimStart(s: string): (r: string)
    ensures |r| <= |s| && r == s[|s| - |r|..]
    ensures r == "" || !IsTrimmable(r[0])
    ensures forall i :: 0 <= i < |s| - |r| ==> IsTrimmable(s[i])
  {
    if s != [] && IsTrimmable(s[0]) then TrimStart(s[1..]) else s
  }

  function TrimEnd(s: string): (r: string)
    ensures |r| <= |s| && r == s[..|r|]
    ensures r == "" || !IsTrimmable(r[|r| - 1])
    ensures forall i :: |r| <= i < |s| ==> IsTrimmable(s[i])
  {
    if s != [] && IsTrimmable(s[|s| - 1]) then TrimEnd(s[..|s| - 1]) else s
  }

  /** JavaScript's `s.trim()`. */
  function Trim(s: string): (r: string)
    ensures |r| <= |s|
    ensures r == "" || (!IsTrimmable(r[0]) && !IsTrimmable(r[|r| - 1]))
  {
    TrimEnd(TrimStart(s))
  }

  /** `!s.trim()` holds exactly when every character of `s` is white space (including the
      empty string). */
  lemma {:induction false} BlankIff(s: string)
    ensures Trim(s) == "" <==> forall i :: 0 <= i < |s| ==> IsTrimmable(s[i])
  {
    var t := TrimStart(s);
    if t != "" {
      assert !IsTrimmable(s[|s| - |t|]);
    }
  }

  /** The guard of `sendMessage`: a non-blank message and no request in flight. */
  function Accepts(currentMessage: string, isLoading: bool): (ok: bool)
    ensures ok <==> !isLoading && exists i :: 0 <= i < |currentMessage| && !IsTrimmable(currentMessage[i])
  {
    BlankIff(currentMessage);
    Trim(currentMessage) != "" && !isLoading
  }

  /** The messages the continuation shows for an outcome. */
  function ReplyMessages(outcome: SendOutcome, now: Millis): (ms: seq<Message>)
    ensures |ms| <= 1
    ensures forall m :: m in ms ==> !m.isUser && m.timestamp == now
    ensures outcome == Errored ==> ms == [Message(Apology, false, now)]
    ensures outcome.Replied? ==> (ms != [] <==> outcome.reply.Some?)
    ensures outcome.Replied? && outcome.reply.Some? ==> ms[0].text == outcome.reply.value.message
  {
    match outcome
    case Replied(Some(r)) => [Message(r.message, false, now)]
    case Replied(None) => []
    case Errored => [Message(Apology, false, now)]
  }

  class ChatComponent {
    var messages: seq<Message>
    var currentMessage: string
    var isLoading: bool
    /** The text of the request in flight, if any. */
    ghost var inFlight: Option<string>

    /** A request is in flight exactly while the loading flag is set. */
    ghost predicate Valid()
      reads this
    {
      isLoading <==> inFlight.Some?
    }

    constructor ()
      ensures Valid()
      ensures messages == [] && currentMessage == "" && !isLoading && inFlight == None
    {
      messages := [];
      currentMessage := "";
      isLoading := false;
      inFlight := None;
    }

    /** The synchronous part of `sendMessage`, up to the `await`. A blank message or a
        request already in flight changes nothing; otherwise the untrimmed text is shown as
        the user's message, the input is cleared, loading starts, and the same untrimmed text
        is returned as the one to send. */
    method Begin(now: Millis) returns (sent: Option<string>)
      requires Valid()
      modifies this
      ensures Valid()
      ensures sent.Some? <==> Accepts(old(currentMessage), old(isLoading))
      ensures sent.None? ==>
        messages == old(messages) && currentMessage == old(currentMessage)
        && isLoading == old(isLoading) && inFlight == old(inFlight)
      ensures sent.Some? ==>
        && sent.value == old(currentMessage)
        && messages == old(messages) + [Message(old(currentMessage), true, now)]
        && currentMessage == "" && isLoading && inFlight == sent
    {
      if !Accepts(currentMessage, isLoading) {
        return None;
      }
      var userMessage := Message(currentMessage, true, now);
      messages := messages + [userMessage];
      var messageToSend := currentMessage;
      currentMessage := "";
      isLoading := true;
      inFlight := Some(messageToSend);
      sent := Some(messageToSend);
    }

    /** The continuation after the request ends: a truthy reply adds one bot message with its
        text, a falsy one adds nothing, an error adds the apology; loading always stops. The
        text being typed meanwhile is left alone. */
    method Finish(outcome: SendOutcome, now: Millis)
      requires Valid() && isLoading
      modifies this`messages, this`isLoading, this`inFlight
      ensures Valid()
      ensures messages == old(messages) + ReplyMessages(outcome, now)
      ensures !isLoading && inFlight == None
    {
      match outcome {
        case Replied(response) =>
          if response.Some? {
            messages := messages + [Message(response.value.message, false, now)];
          }
        case Errored =>
          messages := messages + [Message(Apology, false, now)];
      }
      isLoading := false;
      inFlight := None;
    }
  }

  /** A whole accepted send, start to finish: the earlier messages are kept as they were, and
      one or two are added, the first being the user's own; loading is over at the end. */
  method SendRound(c: ChatComponent, outcome: SendOutcome, sentAt: Millis, repliedAt: Millis)
    returns (sent: Option<string>)
    requires c.Valid()
    modifies c
    ensures c.Valid()
    ensures sent.None? ==> c.messages == old(c.messages) && c.isLoading == old(c.isLoading)
    ensures sent.Some? ==>
      && |old(c.messages)| + 1 <= |c.messages| <= |old(c.messages)| + 2
      && c.messages[..|old(c.messages)|] == old(c.messages)
      && c.messages[|old(c.messages)|] == Message(sent.value, true, sentAt)
      && !c.isLoading
  {
    sent := c.Begin(sentAt);
    if sent.Some? {
      c.Finish(outcome, repliedAt);
    }
  }

  /** While one request is in flight a second send is refused and changes nothing. */
  method SecondSendRefused(c: ChatComponent, now: Millis) returns (second: Option<string>)
    requires c.Valid() && c.inFlight.Some?
    modifies c
    ensures second.None?
    ensures c.Valid()
    ensures c.messages == old(c.messages) && c.currentMessage == old(c.currentMessage)
    ensures c.isLoading == old(c.isLoading) && c.inFlight == old(c.inFlight)
  {
    second := c.Begin(now);
  }
}

=== FILE: pinecone_db.dfy ===
/** The Pinecone backend of the vector service (`PineconeDB`).

    The remote index is modelled as a map from vector id to the stored vector; `upsert`
    replaces whatever is stored under the same id. Embeddings and scores are opaque floats,
    and the clock reading `int(time.time())` is a parameter. */
module PineconeDb {
  import opened Wrappers
  import opened PyValues
  import opened BaseVectorDb

  /** A stored vector: its coordinates and its metadata (a snapshot taken at upsert). */
  datatype Vector = Vector(values: Embedding, metadata: Metadata)

  const CredentialsMissing := "PINECONE_API_KEY and PINECONE_ENVIRONMENT must be set"
  const DefaultCollectionName := "chat-embeddings"
  const DefaultDimension := 1536

  /** Why constructing the backend raised: the credential check, or an exception from the
      Pinecone library (`init`, `list_indexes`, `create_index`). */
  datatype OpenError = CredentialsRejected(error: ValueError) | LibraryRaised(exception: PyException)

  /** The credentials handed to `pinecone.init`. */
  datatype Credentials = Credentials(apiKey: string, environment: string)

  /** `_connect`: both environment variables must be set and non-empty (Python truthiness),
      otherwise it raises `ValueError`. */
  function Connect(apiKey: Option<string>, environment: Option<string>): (r: Result<Credentials, ValueError>)
    ensures r.Success? <==>
      apiKey.Some? && apiKey.value != "" && environment.Some? && environment.value != ""
    ensures r.Success? ==> r.value == Credentials(apiKey.value, environment.value)
    ensures r.Failure? ==> r.error == ValueError(CredentialsMissing)
  {
    match (apiKey, environment)
    case (Some(key), Some(env)) =>
      if key == "" || env == "" then Failure(ValueError(CredentialsMissing))
      else Success(Credentials(key, env))
    case _ => Failure(ValueError(CredentialsMissing))
  }

  // ---------------------------------------------------------------------------------------
  // Vector ids

  function DigitChar(d: nat): (c: char)
    requires d < 10
    ensures '0' <= c <= '9'
  {
    ('0' as int + d) as char
  }

  /** The decimal representation Python prints for a non-negative `int`. */
  function Digits(n: nat): (s: string)
    ensures |s| >= 1
    ensures |s| == 1 <==> n < 10
    ensures forall i :: 0 <= i < |s| ==> '0' <= s[i] <= '9'
    ensures n >= 10 ==> s[0] != '0'
  {
    if n < 10 then [DigitChar(n)] else Digits(n / 10) + [DigitChar(n % 10)]
  }

  /** The id `insert` gives a vector: `f"vec_{timestamp}"`. */
  function VectorId(timestamp: nat): (id: string)
    ensures |id| >= 5 && id[..4] == "vec_"
    ensures forall i :: 4 <= i < |id| ==> '0' <= id[i] <= '9'
  {
    "vec_" + Digits(timestamp)
  }

  lemma {:induction false} DigitsInjective(a: nat, b: nat)
    requires Digits(a) == Digits(b)
    ensures a == b
  {
    if a >= 10 && b >= 10 {
      var da, db := Digits(a), Digits(b);
      assert da[|da| - 1] == DigitChar(a % 10) && db[|db| - 1] == DigitChar(b % 10);
      assert a % 10 == b % 10;
      assert da[..|da| - 1] == Digits(a / 10) && db[..|db| - 1] == Digits(b / 10);
      DigitsInjective(a / 10, b / 10);
    } else if a < 10 && b < 10 {
      assert Digits(a)[0] == DigitChar(a);
    }
  }

  /** Two inserts share a vector id exactly when they happen in the same second. */
  lemma VectorIdSameSecond(a: nat, b: nat)
    ensures VectorId(a) == VectorId(b) <==> a == b
  {
    if VectorId(a) == VectorId(b) {
      assert Digits(a) == VectorId(a)[4..] && Digits(b) == VectorId(b)[4..];
      DigitsInjective(a, b);
    }
  }

  // ---------------------------------------------------------------------------------------
  // Metadata packing and unpacking

  /** The metadata `insert` stores: the caller's keys, then `text` and `timestamp`, which
      override caller keys of the same name. */
  function Pack(caller: Metadata, text: string, timestamp: nat): (m: Metadata)
    ensures m.Keys == caller.Keys + {"text", "timestamp"}
    ensures m["text"] == PStr(text) && m["timestamp"] == PInt(timestamp)
    ensures forall k :: k in caller && k != "text" && k != "timestamp" ==> m[k] == caller[k]
  {
    caller["text" := PStr(text)]["timestamp" := PInt(timestamp)]
  }

  /** One match of a query: the id, the similarity score and the stored metadata. */
  datatype Match = Match(id: string, score: Float, metadata: Metadata)

  /** One search result as `search` builds it. */
  datatype SearchResult = SearchResult(text: PyValue, metadata: Metadata, timestamp: PyValue, distance: Float)

  /** Python's `d.get(key, default)`. */
  function Get(d: Metadata, key: string, default: PyValue): PyValue
  {
    if key in d then d[key] else default
  }

  /** The result for one match: `text` (default `""`), `timestamp` (default `0`), the score as
      the distance, and the metadata without the two keys `insert` added. */
  function Unpack(m: Match): (r: SearchResult)
    ensures r.metadata.Keys == m.metadata.Keys - {"text", "timestamp"}
    ensures forall k :: k in r.metadata ==> r.metadata[k] == m.metadata[k]
    ensures r.distance == m.score
    ensures r.text == (if "text" in m.metadata then m.metadata["text"] else PStr(""))
    ensures r.timestamp == (if "timestamp" in m.metadata then m.metadata["timestamp"] else PInt(0))
  {
    SearchResult(
      Get(m.metadata, "text", PStr("")),
      map k | k in m.metadata && k != "text" && k != "timestamp" :: m.metadata[k],
      Get(m.metadata, "timestamp", PInt(0)),
      m.score)
  }

  /** `search`'s list comprehension: one result per match, in match order. */
  function SearchResults(matches: seq<Match>): (rs: seq<SearchResult>)
    ensures |rs| == |matches|
    ensures forall i :: 0 <= i < |matches| ==> rs[i] == Unpack(matches[i])
  {
    if matches == [] then [] else [Unpack(matches[0])] + SearchResults(matches[1..])
  }

  /** Unpacking a packed entry always recovers the text and the timestamp; the caller's
      metadata comes back without any `text` or `timestamp` key of its own. */
  lemma UnpackPacked(caller: Metadata, text: string, timestamp: nat, id: string, score: Float)
    ensures Unpack(Match(id, score, Pack(caller, text, timestamp))) ==
      SearchResult(PStr(text), caller - {"text", "timestamp"}, PInt(timestamp), score)
  {
    var r := Unpack(Match(id, score, Pack(caller, text, timestamp)));
    assert r.metadata == caller - {"text", "timestamp"};
  }

  /** Round trip: metadata without the two reserved keys comes back unchanged. */
  lemma RoundTrip(caller: Metadata, text: string, timestamp: nat, id: string, score: Float)
    requires "text" !in caller && "timestamp" !in caller
    ensures Unpack(Match(id, score, Pack(caller, text, timestamp))) ==
      SearchResult(PStr(text), caller, PInt(timestamp), score)
  {
    UnpackPacked(caller, text, timestamp, id, score);
    assert caller - {"text", "timestamp"} == caller;
  }

  // ---------------------------------------------------------------------------------------
  // The backend object

  /** A caller's Python `dict`: an object that `insert` may update in place. */
  class PyDict {
    var entries: Metadata

    constructor (entries: Metadata)
      ensures this.entries == entries
    {
      this.entries := entries;
    }
  }

  class PineconeDB {
    /** The collection name and dimension the backend was created with. */
    const base: BaseVectorDB
    /** The contents of the remote index, by vector id. */
    var index: map<string, Vector>

    constructor (base: BaseVectorDB, contents: map<string, Vector>)
      ensures this.base == base && index == contents
    {
      this.base := base;
      index := contents;
    }

    /** `PineconeDB(collection_name, dimension)`: checks the credentials, then calls the
        Pinecone library to initialise, list the indexes and create the index of that name
        when it is missing. `library` is what those calls did: raised an exception, or
        found the remote index of that name (`None` when it had to be created, empty). */
    static method Open(collectionName: string, dimension: int, apiKey: Option<string>,
                       environment: Option<string>,
                       library: Result<Option<map<string, Vector>>, PyException>)
      returns (r: Result<PineconeDB, OpenError>)
      ensures r.Failure? <==> Connect(apiKey, environment).Failure? || library.Failure?
      ensures Connect(apiKey, environment).Failure? ==>
        r.Failure? && r.error == CredentialsRejected(ValueError(CredentialsMissing))
      ensures Connect(apiKey, environment).Success? && library.Failure? ==>
        r.Failure? && r.error == LibraryRaised(library.error)
      ensures r.Success? ==>
        && fresh(r.value)
        && r.value.base.collectionName == collectionName && r.value.base.dimension == dimension
        && r.value.index == (if library.value.Some? then library.value.value else map[])
    {
      var base := new BaseVectorDB(collectionName, dimension);
      var credentials := Connect(apiKey, environment);
      if credentials.Failure? {
        return Failure(CredentialsRejected(credentials.error));
      }
      if library.Failure? {
        return Failure(LibraryRaised(library.error));
      }
      var contents := if library.value.Some? then library.value.value else map[];
      var db := new PineconeDB(base, contents);
      r := Success(db);
    }

    /** `PineconeDB()` with its default arguments: the collection `chat-embeddings` of
        dimension 1536. */
    static method OpenDefault(apiKey: Option<string>, environment: Option<string>,
                              library: Result<Option<map<string, Vector>>, PyException>)
      returns (r: Result<PineconeDB, OpenError>)
      ensures r.Failure? <==> Connect(apiKey, environment).Failure? || library.Failure?
      ensures r.Success? ==>
        && fresh(r.value)
        && r.value.base.collectionName == "chat-embeddings" && r.value.base.dimension == 1536
        && r.value.index == (if library.value.Some? then library.value.value else map[])
    {
      r := Open(DefaultCollectionName, DefaultDimension, apiKey, environment, library);
    }

    /** `insert`: a non-empty caller dictionary gets `text` and `timestamp` merged into it in
        place; `None` or an empty one is replaced by a fresh dictionary the caller never sees.
        The merged metadata is upserted under `vec_<timestamp>`, replacing any vector stored
        under that id. */
    method Insert(text: string, embedding: Embedding, metadata: PyDict?, timestamp: nat)
      modifies this`index, metadata
      ensures metadata != null && old(metadata.entries) != map[] ==>
        metadata.entries == Pack(old(metadata.entries), text, timestamp)
      ensures metadata != null && old(metadata.entries) == map[] ==> metadata.entries == map[]
      ensures index == old(index)[VectorId(timestamp) :=
        Vector(embedding, Pack(if metadata != null then old(metadata.entries) else map[], text, timestamp))]
    {
      var vectorId := VectorId(timestamp);
      var metadataDict: PyDict;
      if metadata != null && metadata.entries != map[] {
        metadataDict := metadata;
      } else {
        metadataDict := new PyDict(map[]);
      }
      metadataDict.entries := metadataDict.entries["text" := PStr(text)]["timestamp" := PInt(timestamp)];
      index := index[vectorId := Vector(embedding, metadataDict.entries)];
    }

    /** `delete_by_timestamp` is not supported by this backend and leaves the index as it is. */
    method DeleteByTimestamp(timestamp: int)
      ensures index == old(index)
    {
    }
  }

  /** Two inserts in the same second share an id: the second vector, with the second text,
      replaces the first, whatever metadata dictionaries the callers pass (even the same
      one twice); every other id keeps its vector. */
  method SameSecondInserts(db: PineconeDB, first: string, second: string,
                           e1: Embedding, e2: Embedding, m1: PyDict?, m2: PyDict?, timestamp: nat)
    modifies db, m1, m2
    ensures db.index.Keys == old(db.index).Keys + {VectorId(timestamp)}
    ensures db.index[VectorId(timestamp)] ==
      Vector(e2, Pack(if m2 != null then old(m2.entries) else map[], second, timestamp))
    ensures forall id :: id in old(db.index) && id != VectorId(timestamp) ==> db.index[id] == old(db.index)[id]
  {
    db.Insert(first, e1, m1, timestamp);
    db.Insert(second, e2, m2, timestamp);
  }

  /** A vector inserted at one second is untouched by an insert at another second, whatever
      metadata dictionary that insert is given. */
  method OtherSecondsKept(db: PineconeDB, text: string, e: Embedding, m: PyDict?, t1: nat, t2: nat)
    requires t1 != t2 && VectorId(t1) in db.index
    modifies db, m
    ensures VectorId(t1) in db.index && db.index[VectorId(t1)] == old(db.index[VectorId(t1)])
  {
    VectorIdSameSecond(t1, t2);
    db.Insert(text, e, m, t2);
  }
}

=== FILE: py_values.dfy ===
/** Python values as the vector service stores them in metadata dictionaries. */
module PyValues {

  /** An IEEE-754 double carried through unexamined (scores, embedding coordinates). */
  datatype Float = Float(bits: bv64)

  /** An embedding vector: produced and compared outside the model. */
  type Embedding = seq<Float>

  /** The Python values that can appear in a metadata dictionary. Dictionaries are keyed by
      strings, as they are when they arrive as JSON; anything else is an opaque object. */
  datatype PyValue =
    | PNone
    | PBool(b: bool)
    | PInt(i: int)
    | PFloat(f: Float)
    | PStr(s: string)
    | PList(items: seq<PyValue>)
    | PDict(entries: map<string, PyValue>)
    | PObject(id: nat)

  /** The contents of a Python `dict` with string keys (insertion order is not modelled). */
  type Metadata = map<string, PyValue>

  /** The exception a Python call raised, identified only by its class name. */
  datatype PyException = PyException(className: string)

  /** Python's `ValueError`, with its message. */
  datatype ValueError = ValueError(message: string)
}

=== FILE: vector_db_factory.dfy ===
/** `create_vector_db`: picks the vector-store backend from the `VECTOR_DB_TYPE`
    environment variable. */
module VectorDbFactory {
  import opened Wrappers
  import opened PyValues

  const DefaultCollectionName := "chat_embeddings"
  const DefaultDimension := 1536
  const DefaultType := "milvus"
  const UnsupportedPrefix := "Unsupported vector database type: "

  /** The backend constructor that is called, with the arguments it receives. */
  datatype Backend =
    | MilvusBackend(collectionName: string, dimension: int)
    | PineconeBackend(collectionName: string, dimension: int)

  function LowerChar(c: char): char
  {
    if 'A' <= c <= 'Z' then (c as int - 'A' as int + 'a' as int) as char else c
  }

  /** `str.lower()` on ASCII letters. */
  function Lower(s: string): (r: string)
    ensures |r| == |s|
    ensures forall i :: 0 <= i < |s| ==> r[i] == LowerChar(s[i])
  {
    if s == [] then [] else [LowerChar(s[0])] + Lower(s[1..])
  }

  /** Dispatch on the lower-cased variable: unset means Milvus, "pinecone" means Pinecone and
      anything else, the empty string included, raises a `ValueError` naming it. */
  function CreateVectorDb(vectorDbType: Option<string>, collectionName: string, dimension: int)
    : (r: Result<Backend, ValueError>)
    ensures vectorDbType.None? ==> r == Success(MilvusBackend(collectionName, dimension))
    ensures r.Success? ==> r.value.collectionName == collectionName && r.value.dimension == dimension
  {
    var dbType := Lower(if vectorDbType.Some? then vectorDbType.value else DefaultType);
    if dbType == "milvus" then Success(MilvusBackend(collectionName, dimension))
    else if dbType == "pinecone" then Success(PineconeBackend(collectionName, dimension))
    else Failure(ValueError(UnsupportedPrefix + dbType))
  }

  /** `create_vector_db()` with its default arguments: the collection `chat_embeddings` of
      dimension 1536. */
  function CreateVectorDbDefaults(vectorDbType: Option<string>): (r: Result<Backend, ValueError>)
    ensures vectorDbType.None? ==> r == Success(MilvusBackend("chat_embeddings", 1536))
    ensures r.Success? ==> r.value.collectionName == "chat_embeddings" && r.value.dimension == 1536
  {
    CreateVectorDb(vectorDbType, DefaultCollectionName, DefaultDimension)
  }

  /** `s` spells `word` (a lower-case word) with each letter in either case. */
  predicate SpellsIgnoringCase(s: string, word: string)
  {
    |s| == |word| &&
    forall i :: 0 <= i < |s| ==>
      s[i] == word[i] || ('a' <= word[i] <= 'z' && s[i] as int == word[i] as int - 32)
  }

  /** A word spelled in any mix of cases lower-cases to the word itself. */
  lemma LowerSpelling(s: string, word: string)
    requires SpellsIgnoringCase(s, word)
    requires forall i :: 0 <= i < |word| ==> !('A' <= word[i] <= 'Z')
    ensures Lower(s) == word
  {
    forall i | 0 <= i < |s|
      ensures Lower(s)[i] == word[i]
    {
      if s[i] != word[i] {
        assert 'A' <= s[i] <= 'Z';
      }
    }
  }

  /** Matching ignores case: "pinecone" in any mix of cases selects Pinecone. */
  lemma PineconeAnyCase(s: string, collectionName: string, dimension: int)
    requires SpellsIgnoringCase(s, "pinecone")
    ensures CreateVectorDb(Some(s), collectionName, dimension) ==
      Success(PineconeBackend(collectionName, dimension))
  {
    LowerSpelling(s, "pinecone");
  }

  /** Matching ignores case: "milvus" in any mix of cases selects Milvus. */
  lemma MilvusAnyCase(s: string, collectionName: string, dimension: int)
    requires SpellsIgnoringCase(s, "milvus")
    ensures CreateVectorDb(Some(s), collectionName, dimension) ==
      Success(MilvusBackend(collectionName, dimension))
  {
    LowerSpelling(s, "milvus");
  }

  /** The result depends only on the lower-cased value. */
  lemma CaseInsensitive(a: string, b: string, collectionName: string, dimension: int)
    requires Lower(a) == Lower(b)
    ensures CreateVectorDb(Some(a), collectionName, dimension) == CreateVectorDb(Some(b), collectionName, dimension)
  {
  }

  /** Any other value raises, carrying the lower-cased value; a variable set to the empty
      string does not fall back to the default. */
  lemma OtherValuesRaise(s: string, collectionName: string, dimension: int)
    requires Lower(s) != "milvus" && Lower(s) != "pinecone"
    ensures CreateVectorDb(Some(s), collectionName, dimension) == Failure(ValueError(UnsupportedPrefix + Lower(s)))
    ensures CreateVectorDb(Some(""), collectionName, dimension) == Failure(ValueError(UnsupportedPrefix))
  {
    assert Lower("") == "";
    assert UnsupportedPrefix + "" == UnsupportedPrefix;
  }
}

=== FILE: wrappers.dfy ===
/** Option and result types shared by every module. */
module Wrappers {

  /** A value that may be missing: JavaScript `undefined`/`null`, Python `None`. */
  datatype Option<+T> = None | Some(value: T)

  /** The outcome of an operation that either returns a value or throws. */
  datatype Result<+R, +E> = Success(value: R) | Failure(error: E)

  /** The outcome of a call into a collaborator the model does not look inside. */
  datatype Outcome<+T> = Done(value: T) | Failed
}
